=== FILE: README.md ===
# ExplodedView — a Dafny model of the exploded-view selection state machine

The `ExplodedView` Unity component shows a 3D assembly made of a fixed set of
parts. A toggle explodes all parts out to authored positions around the view's
origin, or collapses them back. While the view is exploded, one part at a time can
be selected. The selected part moves out by its inspection offset, its title,
description and image appear on an info panel with its arrow indicator lit, and
its narration clip plays. The input entry point (`RuntimeShowExplodedView`)
either toggles the view or flips one part's selection, and the first time it is
used while exploded it signals the game's progression state machine.

The model is functional. `ExplodedView.View` is an immutable record of the
component:
- the authored parts, the clips and the view's origin;
- the per-part transform position, `InitialPosition` and `IsSelected`;
- the four flags `IsExplodedView`, `isToggling`, `anyPartSelectedFlag` and
  `firstPartSelected`;
- the panel projection (`Infos.Ui`);
- a log of outside effects (clip played, progression signal);
- the list of moves that have started but not yet landed.

Each operation of the component is modelled by a pure function: `SelectPart`, `DeselectPart`, `DeselectAllParts`, `ToggleExplodedView`, `RuntimeShowExplodedView` and `PlayTtsPart` map one state of the record to the next; `Awake` is the constructor `Init`; `UpdateInfosUI` is a function on the panel alone.
A move (`Motion.Move`) records its target when it starts, because
both coroutines compute their targets before their first frame. It lands with
`ExplodedView.FinishMove`, which assigns the target exactly, as the final snap
does. Moves may land in any order. Frames in between may write any position
(`ExplodedView.FrameWrite`).

`ExplodedView.Valid` is the component's invariant:
- at most one part is selected, and the flag says whether one is;
- a part is only selected while the view is exploded;
- `isToggling` is set exactly while the single batch move is in flight;
- the panel is visible exactly while a part is selected, and then shows that part;
- the progression signal has fired once if the latch is set, and never otherwise.

`ViewInvariant` proves that every step keeps it, and so does every sequence of
steps from `Awake` on.

Files: `vectors.dfy` (positions), `parts.dfy` (authored part data),
`infos.dfy` (panel), `motion.dfy` (move targets and landing), `view.dfy`
(the component), `invariant.dfy` (invariant preservation),
`properties.dfy` (multi-call properties).

## Model

| member | source | states |
|---|---|---|
| Infos.UpdateInfosUI | Assets/Scripts/items/ExplodedView.cs:183-201 | The panel is shown only when the selection flag is set and a part is given; it then shows the part's title and description, shows the image exactly when the part has one, and lights only the arrow at the part's index. Otherwise the panel is hidden and texts, image and arrows keep their old values. |
| Infos.HideInfos | Assets/Scripts/items/ExplodedView.cs:197-200 | Calling `UpdateInfosUI()` with its default arguments hides the panel and changes nothing else on it. |
| Motion.BatchTargets | Assets/Scripts/items/ExplodedView.cs:255-268 | On explode, every part's target is its final position plus the view's origin, and the pre-toggle positions become the new `InitialPosition` record. On collapse, the targets are the recorded positions and the record is left alone. |
| Motion.MoveAllPartsPrologue | Assets/Scripts/items/ExplodedView.cs:251-268 | A loop formulation of the per-part loop, building the target and record sequences one part at a time, is proved to compute exactly what `BatchTargets` states. |
| Motion.Land | Assets/Scripts/items/ExplodedView.cs:284-287 | When a move lands, every part it touches is exactly at its target and every other part is where it was. |
| ExplodedView.Init | Assets/Scripts/items/ExplodedView.cs:70-82 | After `Awake` the component satisfies the invariant: nothing is exploded, toggling or selected, the latch is clear, the panel is hidden and no effect has happened yet. The configuration and origin are the given ones, and the given panel is only hidden, with its texts, image and arrows kept. |
| ExplodedView.DeselectPart | Assets/Scripts/items/ExplodedView.cs:203-231 | An out-of-range index or an unselected part changes nothing. Otherwise only that part's bit and the flag are cleared, the panel is hidden, and one move back to final position plus origin starts. The exploded state is not checked. |
| ExplodedView.DeselectAllFrom | Assets/Scripts/items/ExplodedView.cs:169-181 | The loop deselects the first selected part it finds and then stops. With no selected part left to find it changes nothing. It never selects a part and never touches layout or log. |
| ExplodedView.DeselectAllParts | Assets/Scripts/items/ExplodedView.cs:169-181 | With no part selected nothing changes. Otherwise the result is exactly `DeselectPart` of the lowest-indexed selected part; no part becomes selected, and layout and log are untouched. |
| ExplodedView.PlayTtsPart | Assets/Scripts/items/ExplodedView.cs:164-168 | Exactly the clip at the part's index is appended to the effect log, and nothing else in the state changes. |
| ExplodedView.SelectPart | Assets/Scripts/items/ExplodedView.cs:122-162 | Nothing changes when the view is collapsed, the index is out of range or the part is already selected. Otherwise the part becomes selected and no part other than a previously selected one stays selected. The panel shows the part, exactly the part's clip is appended to the log, the arrow row keeps its length, the moves already pending are kept, and at most two moves are added: with nothing selected, exactly the part's move to its current position plus its offset; with a part selected, the lowest selected part's return move to final position plus origin followed by that move. |
| ExplodedView.MarkSelected | Assets/Scripts/items/ExplodedView.cs:155-161 | Afterwards the bit and the flag are set, the panel shows the part with its arrow row kept at its length, its clip is logged, and a move to its current position plus offset starts. |
| ExplodedView.ToggleExplodedView | Assets/Scripts/items/ExplodedView.cs:99-120 | Nothing changes while a part is selected or a batch is in flight. Otherwise the view flips, `isToggling` is set, a collapse hides the panel, selection and log are untouched, and exactly one batch move is appended with the targets `BatchTargets` gives. |
| ExplodedView.RuntimeShowExplodedView | Assets/Scripts/items/ExplodedView.cs:84-97 | When collapsed, the entry point only toggles. When exploded, it sets the latch, and the first such call logs the progression signal before anything else. A selected part is deselected, the panel hidden and exactly its move back to final position plus origin appended. An unselected part is selected and shown, its clip is the last effect logged, pending moves are kept and the last move goes to its current position plus offset. On the exploded path positions, the `InitialPosition` record and `isToggling` are unchanged, the flag afterwards says whether the part is now selected, and at most two moves are added. After the first call, selecting logs exactly the clip and deselecting logs nothing. Once the latch is set the signal count never grows. |
| ExplodedView.FinishMove | Assets/Scripts/items/ExplodedView.cs:284-289 | A landing move is removed from the pending list and puts the parts it touches exactly at its targets. A landing batch clears `isToggling`. Selection, panel, log and the `InitialPosition` record are unchanged. |
| ExplodedView.FrameWrite | Assets/Scripts/items/ExplodedView.cs:239-245 | An interpolation frame of an in-flight move writes one part's transform and nothing else. |
| ViewInvariant.DeselectAllMeetsTheSelection | Assets/Scripts/items/ExplodedView.cs:169-181 | In a valid state, `DeselectAllParts` deselects exactly the one selected part. |
| ViewInvariant.DeselectPartKeepsValid | Assets/Scripts/items/ExplodedView.cs:223-227 | `DeselectPart` keeps the invariant. Clearing the only selected bit together with the flag leaves nothing selected and the panel hidden. |
| ViewInvariant.MarkSelectedKeepsValid | Assets/Scripts/items/ExplodedView.cs:155-158 | Marking a part in an exploded view with nothing selected keeps the invariant. |
| ViewInvariant.SelectPartKeepsValid | Assets/Scripts/items/ExplodedView.cs:150-156 | `SelectPart` keeps the invariant: the previous selection is removed before the new one is marked, so at most one part is selected and a selected part implies an exploded view. |
| ViewInvariant.ToggleKeepsValid | Assets/Scripts/items/ExplodedView.cs:101-112 | `ToggleExplodedView` keeps the invariant. Because it refuses while a part is selected or toggling, the view never collapses with a selection, and at most one batch is ever in flight. |
| ViewInvariant.RuntimeShowKeepsValid | Assets/Scripts/items/ExplodedView.cs:86-94 | The entry point keeps the invariant; the latch is set in the same step as the one signal. |
| ViewInvariant.FinishMoveKeepsValid | Assets/Scripts/items/ExplodedView.cs:284-289 | A landing move keeps the invariant. `isToggling` is cleared exactly when the batch lands. |
| ViewInvariant.FrameWriteKeepsValid | Assets/Scripts/items/ExplodedView.cs:243 | An interpolation frame keeps the invariant. |
| ViewInvariant.StepKeepsValid | Assets/Scripts/items/ExplodedView.cs:84-231 | Every input, call, landing or frame keeps the invariant. |
| ViewInvariant.RunKeepsValid | Assets/Scripts/items/ExplodedView.cs:84-289 | Every sequence of steps from a valid state ends in a valid state. |
| ViewInvariant.HookFiresAtMostOnce | Assets/Scripts/items/ExplodedView.cs:77-92 | From `Awake` on, the progression signal fires at most once, and it has fired exactly when the latch is set. At most one part is ever selected, and only while exploded. |
| ViewProperties.SelectTwiceIsIdempotent | Assets/Scripts/items/ExplodedView.cs:142-148 | A second `SelectPart` of the same part changes nothing: it plays no second clip and starts no second move. |
| ViewProperties.NoToggleWhileSelected | Assets/Scripts/items/ExplodedView.cs:101-107 | In every valid state with a part selected, toggling changes nothing. |
| ViewProperties.SelectSwapsSelection | Assets/Scripts/items/ExplodedView.cs:150-161 | Selecting `j` while `i` is selected leaves exactly `j` selected. It starts `i`'s move back to final position plus origin and then `j`'s move to current position plus offset, plays only `j`'s clip, and shows `j` on the panel. |
| ViewProperties.SelectThenSelect | Assets/Scripts/items/ExplodedView.cs:122-162 | `SelectPart(i)` and then `SelectPart(j)` in an exploded view: exactly `i` is selected after the first call, and exactly `j` after the second. |
| ViewProperties.ExplodeCollapseRoundTrip | Assets/Scripts/items/ExplodedView.cs:249-289 | Exploding and landing the batch puts each part exactly at final position plus origin. Collapsing and landing that batch returns each part exactly to its pre-explode position, clears `isToggling` and leaves the other pending moves as they were. |
| ViewProperties.StepKeepsInitialPosition | Assets/Scripts/items/ExplodedView.cs:258-265 | Only the exploding branch writes `InitialPosition`: every step that does not take the view from collapsed to exploded leaves the record unchanged. |
| ViewProperties.RunKeepsInitialPosition | Assets/Scripts/items/ExplodedView.cs:258-265 | Any sequence of steps during which the view stays exploded leaves the `InitialPosition` record unchanged. |
| ViewProperties.SessionRoundTrip | Assets/Scripts/items/ExplodedView.cs:249-289 | Explode, then any steps that keep the view exploded (selections, deselections, landings, frames), then collapse with nothing selected and the explode batch landed. When the collapse batch lands every part is exactly at its pre-explode position, and only the moves pending at the collapse remain. |
| ViewProperties.SelectDeselectSessionRoundTrip | Assets/Scripts/items/ExplodedView.cs:122-289 | For the session explode, land, select part 0, land, deselect it, land, collapse, the steps can all be taken, the view stays exploded, and after the collapse lands every part is back at its pre-explode position. |
| ViewProperties.FirstActivationSignalsBeforeSelecting | Assets/Scripts/items/ExplodedView.cs:86-94 | On the first input while exploded, on an unselected part, the log grows by exactly the progression signal followed by the part's clip. |
| ViewProperties.ActivateThreeTimes | Assets/Scripts/items/ExplodedView.cs:84-97 | Three inputs on part 0 of a freshly woken four-part view. The first explodes without selecting or signalling. The second signals once, selects part 0, shows it and plays its clip. The third deselects, hides the panel and does not signal again. |

## Left out

- The custom inspector `ExplodedViewEditor` and the `DEBUG_VIEW` diagnostic logging: they are editor tooling. A refused call is modelled as returning the state unchanged.
- Interpolation: `Vector3.Lerp`, `Time.deltaTime`, `Mathf.Clamp01` and `transitionSpeed` are float numerics and frame timing. A move is modelled by its target, recorded at start, and its exact final snap. Every intermediate frame is a `FrameWrite` of an arbitrary vector, including the first frame, which the source runs synchronously inside `StartCoroutine`.
- Coroutine scheduling: pending moves may land in any order, even though equal durations usually make them land in start order. So the model over-approximates interleavings. `SelectPart`/`DeselectPart` are not gated on `isToggling`, as in the source. A single-part move that races the batch is therefore possible in the model, and nothing is proved about the final position in that case.
- Positions are integer triples, not float `Vector3`. The sums `position + offset` (line 160) and `finalPosition + transform.position` (lines 229 and 260) round in float32 in the source. The exact equalities proved here still carry over, because each compares a landed position with that same computed sum, or with a stored position copied back. Unity stores `Transform.position` relative to the parent, so a written world position need not read back bit for bit; the model assumes it does.
- The view and its parts are a closed world after `Awake`. The view's origin (`transform.position`, read afresh at lines 229 and 260) is a constant of the model, and a part's transform is only written by the component's own moves and their frames. Moving the view or a part from outside the component is not modelled. Each part's position is its own entry, which assumes the parts' transforms are pairwise distinct and that none is a child of another; in Unity, writing a parent's position also moves its children, and two parts sharing one transform would see the last write win, so the exact-snap and round-trip properties hold only under this assumption. The call to `IncrementState` is recorded only as a log entry; the model assumes it does not call back into the component between setting the latch and flipping the selection.
- Unity objects (`Transform`, `GameObject.SetActive`, TextMeshPro, `Image`, `AudioSource`) and the `GameManager.Instance.mainStateMachine` singleton are replaced by the panel projection `Infos.Ui` and the effect log.
- ExplodedView.RuntimeShowExplodedView: the unchecked `parts[partIndex]` on the exploded path is a precondition (index in range when exploded). With an index out of range, the source would throw; if the latch was still clear it would first set it and signal the progression hook.
- ExplodedView.PlayTtsPart: the unchecked `audioClips[partIndex]` is covered by the well-formedness condition that there are at least as many clips as parts. A null clip, and a missing `parts` entry, are not modelled.
- The progression latch `firstPartSelected` is never reset in the code, so the signal fires once per component lifetime, not once per exploded session. `SelectPart` aims at the part's current position plus its offset, not at its assembled position plus offset. In both cases the model follows the code.

=== FILE: infos.dfy ===
/** The information panel: what `UpdateInfosUI` writes to the panel game object,
    the two text fields, the image game object and the row of arrow indicators. */
module Infos {
  import opened Parts

  datatype Ui = Ui(
    infosVisible: bool,         // infos.activeSelf
    title: string,              // title.text
    desc: string,               // desc.text
    imageVisible: bool,         // imgGO.activeSelf
    sprite: Option<Sprite>,     // the Image component's sprite
    arrows: seq<bool>)          // arrows[i].activeSelf

  /** The panel displays part `p`, which sits in slot `index`: both texts, the image
      exactly when the part has one, and the arrow of that slot and no other. */
  ghost predicate ShowsPart(ui: Ui, p: PartConfig, index: int)
  {
    && ui.infosVisible
    && ui.title == p.title
    && ui.desc == p.desc
    && (ui.imageVisible <==> p.image.Some?)
    && ui.sprite == p.image
    && forall a :: 0 <= a < |ui.arrows| ==> (ui.arrows[a] <==> a == index)
  }

  /** The panel is hidden and nothing else on it was touched. */
  ghost predicate HiddenFrom(r: Ui, ui: Ui)
  {
    && !r.infosVisible
    && r.title == ui.title && r.desc == ui.desc
    && r.imageVisible == ui.imageVisible && r.sprite == ui.sprite
    && r.arrows == ui.arrows
  }

  /** `UpdateInfosUI(part, partIndex)`. The panel is filled in only when the
      selection flag is set AND a part was passed; in every other case only the
      panel object is deactivated, so texts, image and arrows keep what they held. */
  function UpdateInfosUI(ui: Ui, anyPartSelected: bool, part: Option<PartConfig>, partIndex: int): (r: Ui)
    ensures |r.arrows| == |ui.arrows|
    ensures r.infosVisible <==> anyPartSelected && part.Some?
    ensures anyPartSelected && part.Some? ==> ShowsPart(r, part.value, partIndex)
    ensures !(anyPartSelected && part.Some?) ==> HiddenFrom(r, ui)
  {
    if anyPartSelected && part.Some? then
      var p := part.value;
      Ui(true, p.title, p.desc, p.image.Some?, p.image, seq(|ui.arrows|, a => a == partIndex))
    else
      ui.(infosVisible := false)
  }

  /** `UpdateInfosUI()` with its default arguments, as called on deselection and collapse. */
  function HideInfos(ui: Ui): (r: Ui)
    ensures HiddenFrom(r, ui)
  {
    UpdateInfosUI(ui, false, None, 0)
  }
}

=== FILE: invariant.dfy ===
/** Every operation of the component keeps `ExplodedView.Valid`: whatever order the
    inputs arrive in and the moves land in, at most one part is selected, the flag
    agrees with the per-part bits, a selected part implies an exploded view, the
    panel agrees with the selection and the progression signal fires at most once. */
module ViewInvariant {
  import opened Vectors
  import opened Parts
  import opened Infos
  import opened Motion
  import opened ExplodedView

  /** Appending an effect adds one to the hook count exactly when it is the hook. */
  lemma HookCountAppend(log: seq<Effect>, e: Effect)
    ensures HookCount(log + [e]) == HookCount(log) + (if e == IncrementState then 1 else 0)
  {
    assert (log + [e])[..|log|] == log;
  }

  /** Starting a single-part move neither starts nor ends a batch. */
  lemma AppendSingleKeepsBatches(moves: seq<Move>, m: Move)
    requires m.Single?
    ensures BatchPending(moves + [m]) <==> BatchPending(moves)
    ensures AtMostOneBatch(moves + [m]) <==> AtMostOneBatch(moves)
  {
    var ms := moves + [m];
    if BatchPending(ms) {
      var k :| 0 <= k < |ms| && ms[k].Batch?;
      assert moves[k].Batch?;
    }
    if BatchPending(moves) {
      var k :| 0 <= k < |moves| && moves[k].Batch?;
      assert ms[k].Batch?;
    }
    if AtMostOneBatch(moves) {
      forall a, b | 0 <= a < |ms| && 0 <= b < |ms| && ms[a].Batch? && ms[b].Batch?
        ensures a == b
      {
        assert moves[a].Batch? && moves[b].Batch?;
      }
    }
    if AtMostOneBatch(ms) {
      forall a, b | 0 <= a < |moves| && 0 <= b < |moves| && moves[a].Batch? && moves[b].Batch?
        ensures a == b
      {
        assert ms[a].Batch? && ms[b].Batch?;
      }
    }
  }

  /** In a valid state the selected part is the only one, so the deselection loop
      meets it first. */
  lemma DeselectAllMeetsTheSelection(v: View, s: nat)
    requires Valid(v) && s < |v.parts| && v.selected[s]
    ensures DeselectAllParts(v) == DeselectPart(v, s)
  {
    assert NoneSelectedIn(v.selected, 0, s);
  }

  /** Deselecting the single selected part leaves nothing selected and hides the panel. */
  lemma DeselectPartKeepsValid(v: View, partIndex: int)
    requires Valid(v)
    ensures Valid(DeselectPart(v, partIndex))
  {
    var r := DeselectPart(v, partIndex);
    if 0 <= partIndex < |v.parts| && v.selected[partIndex] {
      forall k | 0 <= k < |r.selected| ensures !r.selected[k] {
        if k != partIndex { assert !v.selected[k]; }
      }
      AppendSingleKeepsBatches(v.moves, Single(partIndex, Add(v.parts[partIndex].finalPosition, v.origin)));
    }
  }

  /** Marking a part in an exploded view with nothing selected makes it the one
      selected part, shown on the panel. */
  lemma MarkSelectedKeepsValid(v: View, partIndex: nat)
    requires Valid(v) && v.isExplodedView && !SomeSelected(v.selected) && partIndex < |v.parts|
    ensures Valid(MarkSelected(v, partIndex))
  {
    var r := MarkSelected(v, partIndex);
    forall a | 0 <= a < |r.selected|
      ensures r.selected[a] <==> a == partIndex
    {
      if a != partIndex { assert !v.selected[a]; }
    }
    assert r.selected[partIndex];
    AppendSingleKeepsBatches(v.moves, Single(partIndex, Add(v.position[partIndex], v.parts[partIndex].offset)));
    HookCountAppend(v.log, PlayClip(v.clips[partIndex]));
  }

  /** Selecting swaps the old selection for the new one atomically. */
  lemma SelectPartKeepsValid(v: View, partIndex: int)
    requires Valid(v)
    ensures Valid(SelectPart(v, partIndex))
  {
    if v.isExplodedView && 0 <= partIndex < |v.parts| && !v.selected[partIndex] {
      var v1 := if v.anyPartSelectedFlag then DeselectAllParts(v) else v;
      if v.anyPartSelectedFlag {
        var s :| 0 <= s < |v.selected| && v.selected[s];
        DeselectAllMeetsTheSelection(v, s);
        DeselectPartKeepsValid(v, s);
      }
      assert Valid(v1) && !v1.anyPartSelectedFlag;
      MarkSelectedKeepsValid(v1, partIndex);
    }
  }

  /** Toggling is only taken with nothing selected and no batch in flight, and
      then starts the one batch. */
  lemma ToggleKeepsValid(v: View)
    requires Valid(v)
    ensures Valid(ToggleExplodedView(v))
  {
    var r := ToggleExplodedView(v);
    if !v.anyPartSelectedFlag && !v.isToggling {
      var n := |v.moves|;
      assert r.moves[n].Batch?;
      forall a | 0 <= a < n ensures !r.moves[a].Batch? {
        assert r.moves[a] == v.moves[a];
      }
      forall k | 0 <= k < |r.moves| ensures MoveFits(r.moves[k], |r.parts|) {
        if k < n { assert r.moves[k] == v.moves[k]; }
      }
    }
  }

  /** The input entry point: the latch is set together with the one hook. */
  lemma RuntimeShowKeepsValid(v: View, partIndex: int)
    requires Valid(v)
    requires v.isExplodedView ==> 0 <= partIndex < |v.parts|
    ensures Valid(RuntimeShowExplodedView(v, partIndex))
  {
    if v.isExplodedView {
      var v1 := if !v.firstPartSelected
                then v.(firstPartSelected := true, log := v.log + [IncrementState])
                else v;
      HookCountAppend(v.log, IncrementState);
      assert Valid(v1);
      DeselectPartKeepsValid(v1, partIndex);
      SelectPartKeepsValid(v1, partIndex);
    } else {
      ToggleKeepsValid(v);
    }
  }

  /** Taking one move out keeps at most one batch, and keeps a batch pending unless
      the removed move was it. */
  lemma RemoveMoveBatches(moves: seq<Move>, k: nat)
    requires k < |moves| && AtMostOneBatch(moves)
    ensures AtMostOneBatch(RemoveAt(moves, k))
    ensures moves[k].Batch? ==> !BatchPending(RemoveAt(moves, k))
    ensures moves[k].Single? ==> (BatchPending(RemoveAt(moves, k)) <==> BatchPending(moves))
  {
    var r := RemoveAt(moves, k);
    forall a, b | 0 <= a < |r| && 0 <= b < |r| && r[a].Batch? && r[b].Batch?
      ensures a == b
    {
      var a' := if a < k then a else a + 1;
      var b' := if b < k then b else b + 1;
      assert r[a] == moves[a'] && r[b] == moves[b'];
    }
    if moves[k].Batch? {
      forall a | 0 <= a < |r| ensures !r[a].Batch? {
        var a' := if a < k then a else a + 1;
        assert r[a] == moves[a'];
      }
    } else {
      if BatchPending(moves) {
        var b :| 0 <= b < |moves| && moves[b].Batch?;
        assert b != k;
        var b' := if b < k then b else b - 1;
        assert r[b'] == moves[b];
      }
      if BatchPending(r) {
        var a :| 0 <= a < |r| && r[a].Batch?;
        var a' := if a < k then a else a + 1;
        assert r[a] == moves[a'];
      }
    }
  }

  /** A move landing only moves transforms and, for the batch, clears `isToggling`. */
  lemma FinishMoveKeepsValid(v: View, k: nat)
    requires Valid(v) && k < |v.moves|
    ensures Valid(FinishMove(v, k))
  {
    RemoveMoveBatches(v.moves, k);
  }

  /** An interpolation frame only moves one transform. */
  lemma FrameWriteKeepsValid(v: View, i: nat, p: Vec)
    requires Valid(v) && i < |v.parts| && InFlight(v, i)
    ensures Valid(FrameWrite(v, i, p))
  {
  }

  /** Whatever can happen next to the component: an input, a direct call of one of
      its public operations, a move landing, or an interpolation frame. */
  datatype Step =
    | Activate(index: int)
    | Toggle
    | Select(index: int)
    | Deselect(index: int)
    | Finish(move: nat)
    | Frame(part: nat, pos: Vec)

  /** The step can be taken: the entry point's index is in range where it is used
      unchecked, the landing move exists, the frame belongs to a move in flight. */
  ghost predicate Enabled(v: View, s: Step)
  {
    match s
    case Activate(i) => v.isExplodedView ==> 0 <= i < |v.parts|
    case Toggle => true
    case Select(_) => true
    case Deselect(_) => true
    case Finish(k) => k < |v.moves|
    case Frame(i, _) => i < |v.parts| && InFlight(v, i)
  }

  function Apply(v: View, s: Step): (r: View)
    requires WellFormed(v) && Enabled(v, s)
    ensures WellFormed(r)
  {
    match s
    case Activate(i) => RuntimeShowExplodedView(v, i)
    case Toggle => ToggleExplodedView(v)
    case Select(i) => SelectPart(v, i)
    case Deselect(i) => DeselectPart(v, i)
    case Finish(k) => FinishMove(v, k)
    case Frame(i, p) => FrameWrite(v, i, p)
  }

  lemma StepKeepsValid(v: View, s: Step)
    requires Valid(v) && Enabled(v, s)
    ensures Valid(Apply(v, s))
  {
    match s
    case Activate(i) => RuntimeShowKeepsValid(v, i);
    case Toggle => ToggleKeepsValid(v);
    case Select(i) => SelectPartKeepsValid(v, i);
    case Deselect(i) => DeselectPartKeepsValid(v, i);
    case Finish(k) => FinishMoveKeepsValid(v, k);
    case Frame(i, p) => FrameWriteKeepsValid(v, i, p);
  }

  /** The steps can be taken one after the other from `v`. */
  ghost predicate Runnable(v: View, steps: seq<Step>)
    requires WellFormed(v)
    decreases |steps|
  {
    |steps| == 0 || (Enabled(v, steps[0]) && Runnable(Apply(v, steps[0]), steps[1..]))
  }

  function Run(v: View, steps: seq<Step>): (r: View)
    requires WellFormed(v) && Runnable(v, steps)
    ensures WellFormed(r)
    decreases |steps|
  {
    if |steps| == 0 then v else Run(Apply(v, steps[0]), steps[1..])
  }

  /** The invariant holds in every state reachable from a valid one. */
  lemma {:induction false} RunKeepsValid(v: View, steps: seq<Step>)
    requires Valid(v) && Runnable(v, steps)
    ensures Valid(Run(v, steps))
    decreases |steps|
  {
    if |steps| > 0 {
      StepKeepsValid(v, steps[0]);
      RunKeepsValid(Apply(v, steps[0]), steps[1..]);
    }
  }

  /** Over the whole lifetime of the component, from `Awake` on, the progression
      signal fires at most once, and it has fired exactly when the latch is set. */
  lemma HookFiresAtMostOnce(parts: seq<PartConfig>, clips: seq<Clip>, origin: Vec,
                            position: seq<Vec>, ui: Ui, steps: seq<Step>)
    requires |position| == |parts| && |parts| <= |clips|
    requires Runnable(Init(parts, clips, origin, position, ui), steps)
    ensures var r := Run(Init(parts, clips, origin, position, ui), steps);
      && HookCount(r.log) <= 1
      && (HookCount(r.log) == 1 <==> r.firstPartSelected)
      && AtMostOneSelected(r.selected)
      && (SomeSelected(r.selected) ==> r.isExplodedView)
  {
    RunKeepsValid(Init(parts, clips, origin, position, ui), steps);
  }
}

=== FILE: motion.dfy ===
/** Moves of part transforms. A move is started with its target fixed at call time
    and ends by assigning that target exactly (the final snap of `MovePartSmoothly`
    and `MoveAllPartsSmoothly`); the interpolated frames in between are not
    modelled here. */
module Motion {
  import opened Vectors
  import opened Parts

  /** A started, not yet finished move: one part's (`MovePartSmoothly`), or every
      part's at once with one target per part (`MoveAllPartsSmoothly`). */
  datatype Move = Single(part: nat, target: Vec) | Batch(targets: seq<Vec>)

  /** The move only names parts of an `n`-part view. */
  predicate MoveFits(m: Move, n: nat)
  {
    match m
    case Single(p, _) => p < n
    case Batch(ts) => |ts| == n
  }

  /** The move writes the transform of part `i`. */
  predicate Touches(m: Move, i: nat)
  {
    m.Batch? || m.part == i
  }

  /** The first loop of `MoveAllPartsSmoothly`, run synchronously when the batch
      starts: the per-part targets and the new `InitialPosition` record, as the pair
      (targets, initial). Exploding records where each part is now and heads for its
      authored position relative to the view's origin; collapsing heads back to
      the recorded positions and leaves the record alone. */
  function BatchTargets(parts: seq<PartConfig>, origin: Vec, position: seq<Vec>,
                        initial: seq<Vec>, exploding: bool): (r: (seq<Vec>, seq<Vec>))
    requires |position| == |parts| && |initial| == |parts|
    ensures |r.0| == |parts| && |r.1| == |parts|
    ensures exploding ==> r.1 == position
    ensures exploding ==> forall i :: 0 <= i < |parts| ==> r.0[i] == Add(parts[i].finalPosition, origin)
    ensures !exploding ==> r.0 == initial && r.1 == initial
  {
    if exploding then
      (seq(|parts|, i requires 0 <= i < |parts| => Add(parts[i].finalPosition, origin)), position)
    else
      (initial, initial)
  }

  /** A loop formulation of the per-part loop of `MoveAllPartsSmoothly`, building
      the target and record sequences one part at a time; it computes exactly
      what `BatchTargets` states. */
  method MoveAllPartsPrologue(parts: seq<PartConfig>, origin: Vec, position: seq<Vec>,
                              initial: seq<Vec>, exploding: bool)
    returns (targets: seq<Vec>, recorded: seq<Vec>)
    requires |position| == |parts| && |initial| == |parts|
    ensures |targets| == |parts| && |recorded| == |parts|
    ensures exploding ==> recorded == position
    ensures exploding ==> forall i :: 0 <= i < |parts| ==> targets[i] == Add(parts[i].finalPosition, origin)
    ensures !exploding ==> targets == initial && recorded == initial
    ensures (targets, recorded) == BatchTargets(parts, origin, position, initial, exploding)
  {
    targets := [];
    recorded := [];
    var i := 0;
    while i < |parts|
      invariant 0 <= i <= |parts|
      invariant |targets| == i && |recorded| == i
      invariant exploding ==> recorded == position[..i]
      invariant exploding ==> forall k :: 0 <= k < i ==> targets[k] == Add(parts[k].finalPosition, origin)
      invariant !exploding ==> targets == initial[..i] && recorded == initial[..i]
    {
      if exploding {
        targets := targets + [Add(parts[i].finalPosition, origin)];
        recorded := recorded + [position[i]];
      } else {
        targets := targets + [initial[i]];
        recorded := recorded + [initial[i]];
      }
      i := i + 1;
    }
    assert targets == BatchTargets(parts, origin, position, initial, exploding).0;
  }

  /** The final snap of a move: every part the move touches is exactly at its
      target, every other part is where it was. */
  function Land(position: seq<Vec>, m: Move): (r: seq<Vec>)
    requires MoveFits(m, |position|)
    ensures |r| == |position|
    ensures forall i :: 0 <= i < |r| && !Touches(m, i) ==> r[i] == position[i]
    ensures m.Single? ==> r[m.part] == m.target
    ensures m.Batch? ==> forall i :: 0 <= i < |r| ==> r[i] == m.targets[i]
  {
    match m
    case Single(p, t) => position[p := t]
    case Batch(ts) => ts
  }

  /** `s` with the element at `k` taken out, order kept. */
  function RemoveAt<T>(s: seq<T>, k: nat): (r: seq<T>)
    requires k < |s|
    ensures |r| == |s| - 1
    ensures forall a :: 0 <= a < k ==> r[a] == s[a]
    ensures forall a :: k <= a < |r| ==> r[a] == s[a + 1]
  {
    s[..k] + s[k + 1..]
  }
}

=== FILE: parts.dfy ===
/** The authored, read-only side of a part: what the inspector configures for each
    of the fixed slots of the exploded view. The runtime side of a part (its
    transform position, `InitialPosition` and `IsSelected`) lives in the view
    state, one sequence entry per part. */
module Parts {
  import opened Vectors

  datatype Option<T> = None | Some(value: T)

  /** A sprite asset; `None` stands for a null `Sprite` reference. */
  datatype Sprite = Sprite(id: nat)

  /** An audio clip asset. */
  datatype Clip = Clip(id: nat)

  /** `ExplodedView.Part` without its mutable members. */
  datatype PartConfig = PartConfig(
    finalPosition: Vec,     // exploded position, relative to the view's origin
    offset: Vec,            // extra displacement while the part is selected
    title: string,
    desc: string,
    image: Option<Sprite>)
}

=== FILE: properties.dfy ===
/** Properties of the component that relate several calls: repeated and swapped
    selections, the explode/collapse round trip, and the order of effects on the
    input entry point. */
module ViewProperties {
  import opened Vectors
  import opened Parts
  import opened Infos
  import opened Motion
  import opened ExplodedView
  import opened ViewInvariant

  /** A second `SelectPart` of the same part changes nothing: no second clip, no
      second move. */
  lemma SelectTwiceIsIdempotent(v: View, partIndex: int)
    requires WellFormed(v)
    ensures SelectPart(SelectPart(v, partIndex), partIndex) == SelectPart(v, partIndex)
    ensures |SelectPart(SelectPart(v, partIndex), partIndex).log| <= |v.log| + 1
  {
  }

  /** Toggling is refused in every valid state with a part selected. */
  lemma NoToggleWhileSelected(v: View)
    requires Valid(v) && SomeSelected(v.selected)
    ensures ToggleExplodedView(v) == v
  {
  }

  /** Selecting part `j` while part `i` is selected: afterwards exactly `j` is
      selected, `i` heads back to its exploded position and then `j` to its
      inspection position, only `j`'s clip plays and the panel shows `j`. */
  lemma SelectSwapsSelection(v: View, i: nat, j: nat)
    requires Valid(v) && v.isExplodedView
    requires i < |v.parts| && j < |v.parts| && i != j && v.selected[i]
    ensures var r := SelectPart(v, j);
      && (forall k :: 0 <= k < |r.selected| ==> (r.selected[k] <==> k == j))
      && r.moves == v.moves + [Single(i, Add(v.parts[i].finalPosition, v.origin)),
                               Single(j, Add(v.position[j], v.parts[j].offset))]
      && r.log == v.log + [PlayClip(v.clips[j])]
      && ShowsPart(r.ui, v.parts[j], j)
  {
    DeselectAllMeetsTheSelection(v, i);
    var v1 := DeselectPart(v, i);
    assert !v.selected[j];
    forall k | 0 <= k < |v1.selected| ensures !v1.selected[k] {
      if k != i { assert !v.selected[k]; }
    }
    assert SelectPart(v, j) == MarkSelected(v1, j);
  }

  /** `SelectPart(i)` then `SelectPart(j)` in an exploded view leaves exactly `j`
      selected; no state in between has both selected. */
  lemma SelectThenSelect(v: View, i: nat, j: nat)
    requires Valid(v) && v.isExplodedView
    requires i < |v.parts| && j < |v.parts| && i != j
    ensures var m := SelectPart(v, i);
      && (forall k :: 0 <= k < |m.selected| ==> (m.selected[k] <==> k == i))
      && (forall k :: 0 <= k < |m.selected| ==> (SelectPart(m, j).selected[k] <==> k == j))
  {
    var m := SelectPart(v, i);
    SelectPartKeepsValid(v, i);
    assert m.selected[i];
    SelectSwapsSelection(m, i, j);
  }

  /** Exploding and letting the batch land puts every part exactly at its authored
      position relative to the view's origin; collapsing and letting that batch land
      puts every part back exactly where it was before the explode. */
  lemma ExplodeCollapseRoundTrip(v: View)
    requires Valid(v) && !v.isExplodedView && !v.isToggling && !SomeSelected(v.selected)
    ensures var e := ToggleExplodedView(v);
      var e' := FinishMove(e, |e.moves| - 1);
      var c := ToggleExplodedView(e');
      var c' := FinishMove(c, |c.moves| - 1);
      && e.isExplodedView && !e'.isToggling
      && (forall i :: 0 <= i < |v.parts| ==> e'.position[i] == Add(v.parts[i].finalPosition, v.origin))
      && !c'.isExplodedView && !c'.isToggling
      && c'.position == v.position
      && c'.moves == v.moves
  {
    var e := ToggleExplodedView(v);
    assert RemoveAt(e.moves, |e.moves| - 1) == v.moves;
    var e' := FinishMove(e, |e.moves| - 1);
    var c := ToggleExplodedView(e');
    assert RemoveAt(c.moves, |c.moves| - 1) == e'.moves;
  }

  /** Only exploding writes the `InitialPosition` record: every step that does
      not take the view from collapsed to exploded leaves it as it was. */
  lemma StepKeepsInitialPosition(v: View, s: Step)
    requires WellFormed(v) && Enabled(v, s)
    requires v.isExplodedView || !Apply(v, s).isExplodedView
    ensures Apply(v, s).initialPosition == v.initialPosition
  {
    match s
    case Activate(i) =>
      if v.isExplodedView {
        var v1 := if !v.firstPartSelected
                  then v.(firstPartSelected := true, log := v.log + [IncrementState])
                  else v;
        assert v1.initialPosition == v.initialPosition;
        assert DeselectPart(v1, i).initialPosition == v1.initialPosition;
        assert SelectPart(v1, i).initialPosition == v1.initialPosition;
      }
    case Toggle =>
    case Select(i) =>
    case Deselect(i) =>
    case Finish(k) =>
    case Frame(i, p) =>
  }

  /** Every state the steps pass through, the last one included, is exploded. */
  ghost predicate StaysExploded(v: View, steps: seq<Step>)
    requires WellFormed(v) && Runnable(v, steps)
    decreases |steps|
  {
    |steps| == 0 || (Apply(v, steps[0]).isExplodedView && StaysExploded(Apply(v, steps[0]), steps[1..]))
  }

  /** While the view stays exploded, whatever is selected, deselected, moved or
      landed, the `InitialPosition` record is not touched. */
  lemma {:induction false} RunKeepsInitialPosition(v: View, steps: seq<Step>)
    requires WellFormed(v) && v.isExplodedView
    requires Runnable(v, steps) && StaysExploded(v, steps)
    ensures Run(v, steps).isExplodedView
    ensures Run(v, steps).initialPosition == v.initialPosition
    decreases |steps|
  {
    if |steps| > 0 {
      StepKeepsInitialPosition(v, steps[0]);
      RunKeepsInitialPosition(Apply(v, steps[0]), steps[1..]);
    }
  }

  /** The round trip over a whole exploded session: explode, then any steps that
      keep the view exploded (selections, deselections, moves landing, frames),
      then collapse once nothing is selected and the explode batch has landed.
      When the collapse batch lands every part is exactly where it was before the
      explode, and no move other than those pending at the collapse is left. */
  lemma SessionRoundTrip(v: View, steps: seq<Step>)
    requires WellFormed(v) && !v.isExplodedView && !v.isToggling && !v.anyPartSelectedFlag
    requires Runnable(ToggleExplodedView(v), steps) && StaysExploded(ToggleExplodedView(v), steps)
    requires !Run(ToggleExplodedView(v), steps).anyPartSelectedFlag
    requires !Run(ToggleExplodedView(v), steps).isToggling
    ensures var c := Run(ToggleExplodedView(v), steps);
      var c' := ToggleExplodedView(c);
      var c'' := FinishMove(c', |c'.moves| - 1);
      && !c'.isExplodedView
      && c''.position == v.position
      && c''.moves == c.moves
      && !c''.isToggling
  {
    var e := ToggleExplodedView(v);
    RunKeepsInitialPosition(e, steps);
    var c := Run(e, steps);
    var c' := ToggleExplodedView(c);
    assert RemoveAt(c'.moves, |c'.moves| - 1) == c.moves;
  }

  /** Taking one more step, into an exploded state, in front of a run that stays
      exploded gives a run that stays exploded and ends in the same state. */
  lemma PrependStep(v: View, s: Step, t: seq<Step>)
    requires WellFormed(v) && Enabled(v, s) && Apply(v, s).isExplodedView
    requires Runnable(Apply(v, s), t) && StaysExploded(Apply(v, s), t)
    ensures Runnable(v, [s] + t) && StaysExploded(v, [s] + t)
    ensures Run(v, [s] + t) == Run(Apply(v, s), t)
  {
    assert ([s] + t)[0] == s && ([s] + t)[1..] == t;
  }

  /** A typical session: explode and let it land, select part 0 and let its move
      land, deselect it and let that move land, then collapse; every part returns
      exactly to where it was before the explode. */
  lemma SelectDeselectSessionRoundTrip(v: View)
    requires Valid(v) && !v.isExplodedView && !v.isToggling && |v.parts| > 0 && v.moves == []
    ensures var e := ToggleExplodedView(v);
      var steps := [Finish(0), Select(0), Finish(0), Deselect(0), Finish(0)];
      && Runnable(e, steps) && StaysExploded(e, steps)
      && !Run(e, steps).anyPartSelectedFlag && !Run(e, steps).isToggling
      && var c' := ToggleExplodedView(Run(e, steps));
         FinishMove(c', |c'.moves| - 1).position == v.position
  {
    var e := ToggleExplodedView(v);
    var t4 := [Finish(0)];
    var t3 := [Deselect(0)] + t4;
    var t2 := [Finish(0)] + t3;
    var t1 := [Select(0)] + t2;
    var steps := [Finish(0)] + t1;
    var s1 := FinishMove(e, 0);
    assert s1.moves == [] && s1.isExplodedView && !s1.isToggling && !s1.selected[0];
    var s2 := SelectPart(s1, 0);
    assert s2.moves == [Single(0, Add(s1.position[0], s1.parts[0].offset))];
    var s3 := FinishMove(s2, 0);
    assert s3.moves == [] && s3.selected[0] && s3.isExplodedView;
    var s4 := DeselectPart(s3, 0);
    assert s4.moves == [Single(0, Add(s3.parts[0].finalPosition, s3.origin))];
    var s5 := FinishMove(s4, 0);
    assert !s5.anyPartSelectedFlag && !s5.isToggling && s5.isExplodedView;
    assert Apply(s4, Finish(0)) == s5 && Apply(s3, Deselect(0)) == s4;
    assert Apply(s2, Finish(0)) == s3 && Apply(s1, Select(0)) == s2 && Apply(e, Finish(0)) == s1;
    PrependStep(s4, Finish(0), []);
    PrependStep(s3, Deselect(0), t4);
    PrependStep(s2, Finish(0), t3);
    PrependStep(s1, Select(0), t2);
    PrependStep(e, Finish(0), t1);
    SessionRoundTrip(v, steps);
  }

  /** On the first input while exploded the progression signal is logged before the
      part's clip: the hook fires before the selection happens. */
  lemma FirstActivationSignalsBeforeSelecting(v: View, partIndex: nat)
    requires Valid(v) && v.isExplodedView && !v.firstPartSelected
    requires partIndex < |v.parts| && !v.selected[partIndex]
    ensures RuntimeShowExplodedView(v, partIndex).log
            == v.log + [IncrementState, PlayClip(v.clips[partIndex])]
  {
    var v1 := v.(firstPartSelected := true, log := v.log + [IncrementState]);
    assert RuntimeShowExplodedView(v, partIndex) == SelectPart(v1, partIndex);
    if v.anyPartSelectedFlag {
      var s :| 0 <= s < |v.selected| && v.selected[s];
      DeselectAllMeetsTheSelection(v, s);
      assert DeselectAllParts(v1) == DeselectPart(v1, s) by {
        assert NoneSelectedIn(v1.selected, 0, s);
      }
    }
  }

  /** Three inputs on part 0 of a freshly woken four-part view: the first explodes
      the view without selecting or signalling; the second signals once and selects
      part 0, showing it; the third deselects it, hides the panel and does not
      signal again. */
  lemma ActivateThreeTimes(parts: seq<PartConfig>, clips: seq<Clip>, origin: Vec,
                           position: seq<Vec>, ui: Ui)
    requires |parts| == 4 && |position| == 4 && |clips| >= 4
    ensures var v0 := Init(parts, clips, origin, position, ui);
      var v1 := RuntimeShowExplodedView(v0, 0);
      var v2 := RuntimeShowExplodedView(v1, 0);
      var v3 := RuntimeShowExplodedView(v2, 0);
      && v1.isExplodedView && !SomeSelected(v1.selected) && HookCount(v1.log) == 0
      && v2.selected[0] && ShowsPart(v2.ui, parts[0], 0) && HookCount(v2.log) == 1
      && v2.log == [IncrementState, PlayClip(clips[0])]
      && !SomeSelected(v3.selected) && !v3.ui.infosVisible && HookCount(v3.log) == 1
  {
    var v0 := Init(parts, clips, origin, position, ui);
    var v1 := RuntimeShowExplodedView(v0, 0);
    RuntimeShowKeepsValid(v0, 0);
    FirstActivationSignalsBeforeSelecting(v1, 0);
    var v2 := RuntimeShowExplodedView(v1, 0);
    RuntimeShowKeepsValid(v1, 0);
    HookCountAppend([IncrementState], PlayClip(clips[0]));
    assert HookCount([IncrementState]) == 1 by { HookCountAppend([], IncrementState); }
    var v3 := RuntimeShowExplodedView(v2, 0);
    RuntimeShowKeepsValid(v2, 0);
  }
}

=== FILE: vectors.dfy ===
/** World-space positions and offsets. Unity's Vector3 is modelled with integer
    components: the model only ever adds vectors and copies them, and a copied
    vector is bit-for-bit the vector that was stored, which is all the exact
    final snap of a move relies on. */
module Vectors {

  datatype Vec = Vec(x: int, y: int, z: int)

  /** Component-wise sum, Vector3's `+`. */
  function Add(a: Vec, b: Vec): Vec
  {
    Vec(a.x + b.x, a.y + b.y, a.z + b.z)
  }
}

=== FILE: view.dfy ===
/** The `ExplodedView` component: a fixed set of parts that explode and collapse
    together, and, while exploded, at most one selected part shown on the info
    panel. Each operation is a pure step from one state of the component to the
    next. Moves it starts are recorded in `moves` and land later (`FinishMove`);
    sounds and progression signals are appended to `log`. */
module ExplodedView {
  import opened Vectors
  import opened Parts
  import opened Infos
  import opened Motion

  /** An effect outside the component: `audioSource.Play()` with the clip it was
      given, or the game's `mainStateMachine.IncrementState()`. */
  datatype Effect = PlayClip(clip: Clip) | IncrementState

  datatype View = View(
    parts: seq<PartConfig>,       // the authored parts, fixed for the lifetime
    clips: seq<Clip>,             // audioClips, indexed like the parts
    origin: Vec,                  // transform.position of the view itself
    position: seq<Vec>,           // parts[i].partTransform.position
    initialPosition: seq<Vec>,    // parts[i].InitialPosition
    selected: seq<bool>,          // parts[i].IsSelected
    isExplodedView: bool,
    isToggling: bool,
    anyPartSelectedFlag: bool,
    firstPartSelected: bool,
    ui: Ui,
    log: seq<Effect>,
    moves: seq<Move>)             // started moves that have not landed yet

  /** Shapes every state has: one entry per part in each per-part sequence, a clip
      for every part (`PlayTtsPart` indexes `audioClips` by part index unchecked),
      and pending moves that name existing parts. */
  ghost predicate WellFormed(v: View)
  {
    && |v.position| == |v.parts|
    && |v.initialPosition| == |v.parts|
    && |v.selected| == |v.parts|
    && |v.parts| <= |v.clips|
    && forall k :: 0 <= k < |v.moves| ==> MoveFits(v.moves[k], |v.parts|)
  }

  ghost predicate AtMostOneSelected(sel: seq<bool>)
  {
    forall a, b :: 0 <= a < |sel| && 0 <= b < |sel| && sel[a] && sel[b] ==> a == b
  }

  ghost predicate SomeSelected(sel: seq<bool>)
  {
    exists k :: 0 <= k < |sel| && sel[k]
  }

  ghost predicate BatchPending(moves: seq<Move>)
  {
    exists k :: 0 <= k < |moves| && moves[k].Batch?
  }

  ghost predicate AtMostOneBatch(moves: seq<Move>)
  {
    forall a, b :: 0 <= a < |moves| && 0 <= b < |moves| && moves[a].Batch? && moves[b].Batch? ==> a == b
  }

  /** Number of progression signals in the log. */
  function HookCount(log: seq<Effect>): nat
  {
    if |log| == 0 then 0
    else HookCount(log[..|log| - 1]) + (if log[|log| - 1] == IncrementState then 1 else 0)
  }

  /** The panel is visible exactly while a part is selected, and then shows it. */
  ghost predicate PanelAgrees(v: View)
    requires |v.selected| == |v.parts|
  {
    && (v.ui.infosVisible <==> v.anyPartSelectedFlag)
    && forall k :: 0 <= k < |v.selected| && v.selected[k] ==> ShowsPart(v.ui, v.parts[k], k)
  }

  /** The invariant of the component:
      - at most one part is selected, and the flag says whether one is;
      - a part is only ever selected while the view is exploded;
      - `isToggling` is set exactly while the (single) batch move is in flight;
      - the panel agrees with the selection;
      - the progression signal has fired once if the latch is set, else never. */
  ghost predicate Valid(v: View)
  {
    && WellFormed(v)
    && AtMostOneSelected(v.selected)
    && (v.anyPartSelectedFlag <==> SomeSelected(v.selected))
    && (v.anyPartSelectedFlag ==> v.isExplodedView)
    && (v.isToggling <==> BatchPending(v.moves))
    && AtMostOneBatch(v.moves)
    && PanelAgrees(v)
    && HookCount(v.log) == (if v.firstPartSelected then 1 else 0)
  }

  /** Everything but the selection, panel, log and pending moves is as in `v`. */
  ghost predicate SameLayout(v: View, r: View)
  {
    && r.parts == v.parts && r.clips == v.clips && r.origin == v.origin
    && r.position == v.position && r.initialPosition == v.initialPosition
    && r.isExplodedView == v.isExplodedView && r.isToggling == v.isToggling
    && r.firstPartSelected == v.firstPartSelected
  }

  /** The component after `Awake`: nothing selected or exploded, every
      `InitialPosition` at its default zero vector, and the panel hidden. */
  function Init(parts: seq<PartConfig>, clips: seq<Clip>, origin: Vec,
                position: seq<Vec>, ui: Ui): (r: View)
    requires |position| == |parts| && |parts| <= |clips|
    ensures Valid(r)
    ensures !r.isExplodedView && !r.isToggling && !r.firstPartSelected
    ensures !SomeSelected(r.selected) && !r.ui.infosVisible
    ensures r.position == position && r.log == [] && r.moves == []
    ensures r.parts == parts && r.clips == clips && r.origin == origin && HiddenFrom(r.ui, ui)
  {
    View(parts, clips, origin, position,
         seq(|parts|, _ => Vec(0, 0, 0)), seq(|parts|, _ => false),
         false, false, false, false, HideInfos(ui), [], [])
  }

  /** `DeselectPart(partIndex)`. An index out of range or a part that is not
      selected leaves everything as it was. Otherwise the part and the flag are
      cleared, the panel is hidden and the part heads back to its exploded
      position. The view need not be exploded. */
  function DeselectPart(v: View, partIndex: int): (r: View)
    requires WellFormed(v)
    ensures WellFormed(r)
    ensures r.parts == v.parts && r.clips == v.clips && r.origin == v.origin
    ensures !(0 <= partIndex < |v.parts|) || !v.selected[partIndex] ==> r == v
    ensures 0 <= partIndex < |v.parts| && v.selected[partIndex] ==>
      && !r.selected[partIndex]
      && (forall k :: 0 <= k < |r.selected| && k != partIndex ==> r.selected[k] == v.selected[k])
      && !r.anyPartSelectedFlag
      && HiddenFrom(r.ui, v.ui)
      && r.moves == v.moves + [Single(partIndex, Add(v.parts[partIndex].finalPosition, v.origin))]
      && r.log == v.log
      && SameLayout(v, r)
  {
    if partIndex < 0 || partIndex >= |v.parts| then v
    else if !v.selected[partIndex] then v
    else
      var target := Add(v.parts[partIndex].finalPosition, v.origin);
      v.(selected := v.selected[partIndex := false],
         anyPartSelectedFlag := false,
         ui := HideInfos(v.ui),
         moves := v.moves + [Single(partIndex, target)])
  }

  /** No part in `lo..hi` is selected. */
  ghost predicate NoneSelectedIn(sel: seq<bool>, lo: nat, hi: nat)
    requires hi <= |sel|
  {
    forall m :: lo <= m < hi ==> !sel[m]
  }

  /** The loop of `DeselectAllParts`, from index `i` on: it deselects the first
      selected part it meets and then leaves the loop. */
  function DeselectAllFrom(v: View, i: nat): (r: View)
    requires WellFormed(v) && i <= |v.parts|
    ensures WellFormed(r)
    ensures r.parts == v.parts && r.clips == v.clips && r.origin == v.origin
    ensures SameLayout(v, r) && r.log == v.log && |r.moves| >= |v.moves|
    ensures r.moves[..|v.moves|] == v.moves && |r.moves| <= |v.moves| + 1 && r.ui.arrows == v.ui.arrows
    ensures forall k :: 0 <= k < |r.selected| && r.selected[k] ==> v.selected[k]
    ensures NoneSelectedIn(v.selected, i, |v.parts|) ==> r == v
    ensures forall k :: i <= k < |v.parts| && v.selected[k] && NoneSelectedIn(v.selected, i, k) ==>
      r == DeselectPart(v, k)
    decreases |v.parts| - i
  {
    if i == |v.parts| then v
    else if v.selected[i] then DeselectPart(v, i)
    else DeselectAllFrom(v, i + 1)
  }

  /** `DeselectAllParts()`: the lowest-indexed selected part, if any, is
      deselected as by `DeselectPart`; with no part selected nothing changes. */
  function DeselectAllParts(v: View): (r: View)
    requires WellFormed(v)
    ensures WellFormed(r)
    ensures r.parts == v.parts && r.clips == v.clips && r.origin == v.origin
    ensures SameLayout(v, r) && r.log == v.log && |r.moves| >= |v.moves|
    ensures r.moves[..|v.moves|] == v.moves && |r.moves| <= |v.moves| + 1 && r.ui.arrows == v.ui.arrows
    ensures forall k :: 0 <= k < |r.selected| && r.selected[k] ==> v.selected[k]
    ensures !SomeSelected(v.selected) ==> r == v
    ensures forall k :: 0 <= k < |v.parts| && v.selected[k] && NoneSelectedIn(v.selected, 0, k) ==>
      r == DeselectPart(v, k)
  {
    DeselectAllFrom(v, 0)
  }

  /** `PlayTtsPart(partIndex)`: the clip at the part's index is handed to the
      audio source and played. */
  function PlayTtsPart(v: View, partIndex: nat): (r: View)
    requires WellFormed(v) && partIndex < |v.parts|
    ensures WellFormed(r)
    ensures r.log == v.log + [PlayClip(v.clips[partIndex])]
    ensures r.(log := v.log) == v
  {
    v.(log := v.log + [PlayClip(v.clips[partIndex])])
  }

  /** `SelectPart(partIndex)`. Refused, with nothing changed, when the view is not
      exploded, the index is out of range or the part is already selected.
      Otherwise a previously selected part is deselected first; then the part is
      marked, the panel shows it, its clip plays, and it starts moving from where it
      is now by its selection offset. */
  function SelectPart(v: View, partIndex: int): (r: View)
    requires WellFormed(v)
    ensures WellFormed(r)
    ensures r.parts == v.parts && r.clips == v.clips && r.origin == v.origin
    ensures !v.isExplodedView || !(0 <= partIndex < |v.parts|) || v.selected[partIndex] ==> r == v
    ensures v.isExplodedView && 0 <= partIndex < |v.parts| && !v.selected[partIndex] ==>
      && r.selected[partIndex]
      && r.anyPartSelectedFlag
      && (forall k :: 0 <= k < |r.selected| && r.selected[k] && k != partIndex ==> v.selected[k])
      && ShowsPart(r.ui, v.parts[partIndex], partIndex)
      && |r.log| > 0 && r.log[..|r.log| - 1] == v.log
      && r.log[|r.log| - 1] == PlayClip(v.clips[partIndex])
      && |r.ui.arrows| == |v.ui.arrows|
      && |v.moves| < |r.moves| <= |v.moves| + 2
      && r.moves[..|v.moves|] == v.moves
      && r.moves[|r.moves| - 1] == Single(partIndex, Add(v.position[partIndex], v.parts[partIndex].offset))
      && SameLayout(v, r)
    ensures v.isExplodedView && 0 <= partIndex < |v.parts| && !v.selected[partIndex] && !SomeSelected(v.selected) ==>
      r.moves == v.moves + [Single(partIndex, Add(v.position[partIndex], v.parts[partIndex].offset))]
    ensures forall s ::
      (&& v.isExplodedView && 0 <= partIndex < |v.parts| && !v.selected[partIndex]
       && v.anyPartSelectedFlag && 0 <= s < |v.parts| && v.selected[s] && NoneSelectedIn(v.selected, 0, s)) ==>
      r.moves == v.moves + [Single(s, Add(v.parts[s].finalPosition, v.origin)),
                            Single(partIndex, Add(v.position[partIndex], v.parts[partIndex].offset))]
  {
    if !v.isExplodedView then v
    else if partIndex < 0 || partIndex >= |v.parts| then v
    else if v.selected[partIndex] then v
    else
      var v1 := if v.anyPartSelectedFlag then DeselectAllParts(v) else v;
      MarkSelected(v1, partIndex)
  }

  /** The part of `SelectPart` after the old selection is gone: mark the part and
      the flag, fill the panel, play the clip, start the move by the offset. */
  function MarkSelected(v: View, partIndex: nat): (r: View)
    requires WellFormed(v) && partIndex < |v.parts|
    ensures WellFormed(r)
    ensures r.parts == v.parts && r.clips == v.clips && r.origin == v.origin
    ensures r.selected == v.selected[partIndex := true] && r.anyPartSelectedFlag
    ensures ShowsPart(r.ui, v.parts[partIndex], partIndex) && |r.ui.arrows| == |v.ui.arrows|
    ensures r.log == v.log + [PlayClip(v.clips[partIndex])]
    ensures r.moves == v.moves + [Single(partIndex, Add(v.position[partIndex], v.parts[partIndex].offset))]
    ensures SameLayout(v, r)
  {
    var part := v.parts[partIndex];
    var v2 := v.(selected := v.selected[partIndex := true], anyPartSelectedFlag := true);
    var v3 := v2.(ui := UpdateInfosUI(v2.ui, v2.anyPartSelectedFlag, Some(part), partIndex));
    var v4 := PlayTtsPart(v3, partIndex);
    var target := Add(v4.position[partIndex], part.offset);
    v4.(moves := v4.moves + [Single(partIndex, target)])
  }

  /** `ToggleExplodedView()`. Refused, with nothing changed, while a part is
      selected or a batch move is in flight. Otherwise the view flips, `isToggling`
      is set, a collapse hides the panel, and the batch move of every part starts. */
  function ToggleExplodedView(v: View): (r: View)
    requires WellFormed(v)
    ensures WellFormed(r)
    ensures r.parts == v.parts && r.clips == v.clips && r.origin == v.origin
    ensures v.anyPartSelectedFlag || v.isToggling ==> r == v
    ensures !v.anyPartSelectedFlag && !v.isToggling ==>
      && r.isExplodedView == !v.isExplodedView
      && r.isToggling
      && (!r.isExplodedView ==> HiddenFrom(r.ui, v.ui))
      && (r.isExplodedView ==> r.ui == v.ui)
      && r.selected == v.selected && r.anyPartSelectedFlag == v.anyPartSelectedFlag
      && r.position == v.position && r.log == v.log
      && r.firstPartSelected == v.firstPartSelected
      && r.parts == v.parts && r.clips == v.clips && r.origin == v.origin
      && |r.moves| == |v.moves| + 1 && r.moves[..|v.moves|] == v.moves
      && r.moves[|v.moves|].Batch?
      && (r.isExplodedView ==>
            && r.initialPosition == v.position
            && forall i :: 0 <= i < |v.parts| ==>
                 r.moves[|v.moves|].targets[i] == Add(v.parts[i].finalPosition, v.origin))
      && (!r.isExplodedView ==>
            r.initialPosition == v.initialPosition && r.moves[|v.moves|].targets == v.initialPosition)
  {
    if v.anyPartSelectedFlag then v
    else if v.isToggling then v
    else
      var exploded := !v.isExplodedView;
      var ui := if !exploded then HideInfos(v.ui) else v.ui;
      var (targets, initial) := BatchTargets(v.parts, v.origin, v.position, v.initialPosition, exploded);
      v.(isExplodedView := exploded, isToggling := true, ui := ui,
         initialPosition := initial, moves := v.moves + [Batch(targets)])
  }

  /** `RuntimeShowExplodedView(partIndex)`, the input entry point. Collapsed: it
      only toggles. Exploded: the first such call ever signals the progression
      state machine, and then the part's selection is flipped. The part index is
      used unchecked on the exploded path, so it must be in range there. */
  function RuntimeShowExplodedView(v: View, partIndex: int): (r: View)
    requires WellFormed(v)
    requires v.isExplodedView ==> 0 <= partIndex < |v.parts|
    ensures WellFormed(r)
    ensures r.parts == v.parts && r.clips == v.clips && r.origin == v.origin
    ensures !v.isExplodedView ==> r == ToggleExplodedView(v)
    ensures v.isExplodedView ==> r.firstPartSelected && r.isExplodedView
    ensures v.isExplodedView && v.selected[partIndex] ==> !r.selected[partIndex] && !r.ui.infosVisible
    ensures v.isExplodedView && !v.selected[partIndex] ==>
      r.selected[partIndex] && ShowsPart(r.ui, v.parts[partIndex], partIndex)
    ensures v.isExplodedView && !v.firstPartSelected ==>
      |r.log| > |v.log| && r.log[..|v.log| + 1] == v.log + [IncrementState]
    ensures v.isExplodedView && v.firstPartSelected ==> HookCount(r.log) == HookCount(v.log)
    ensures v.isExplodedView && !v.selected[partIndex] ==>
      && |r.log| > 0 && r.log[|r.log| - 1] == PlayClip(v.clips[partIndex])
      && |r.moves| > |v.moves| && r.moves[..|v.moves|] == v.moves
      && r.moves[|r.moves| - 1] == Single(partIndex, Add(v.position[partIndex], v.parts[partIndex].offset))
    ensures v.isExplodedView && v.selected[partIndex] ==>
      r.moves == v.moves + [Single(partIndex, Add(v.parts[partIndex].finalPosition, v.origin))]
    ensures v.isExplodedView && v.firstPartSelected && !v.selected[partIndex] ==>
      r.log == v.log + [PlayClip(v.clips[partIndex])]
    ensures v.isExplodedView && v.firstPartSelected && v.selected[partIndex] ==> r.log == v.log
    ensures v.isExplodedView ==>
      && r.position == v.position && r.initialPosition == v.initialPosition
      && r.isToggling == v.isToggling
      && r.anyPartSelectedFlag == !v.selected[partIndex]
      && |r.moves| <= |v.moves| + 2
  {
    if v.isExplodedView then
      var v1 := if !v.firstPartSelected
                then v.(firstPartSelected := true, log := v.log + [IncrementState])
                else v;
      if v1.selected[partIndex] then DeselectPart(v1, partIndex) else SelectPart(v1, partIndex)
    else ToggleExplodedView(v)
  }

  /** Some started move still writes the transform of part `i`. */
  ghost predicate InFlight(v: View, i: nat)
  {
    exists k :: 0 <= k < |v.moves| && Touches(v.moves[k], i)
  }

  /** A move lands: the final snap assigns its target(s) exactly, the move is no
      longer pending, and a landing batch clears `isToggling`. */
  function FinishMove(v: View, k: nat): (r: View)
    requires WellFormed(v) && k < |v.moves|
    ensures WellFormed(r)
    ensures r.parts == v.parts && r.clips == v.clips && r.origin == v.origin
    ensures r.moves == RemoveAt(v.moves, k)
    ensures v.moves[k].Single? ==> r.position[v.moves[k].part] == v.moves[k].target
    ensures v.moves[k].Batch? ==> r.position == v.moves[k].targets && !r.isToggling
    ensures forall i :: 0 <= i < |v.parts| && !Touches(v.moves[k], i) ==> r.position[i] == v.position[i]
    ensures v.moves[k].Single? ==> r.isToggling == v.isToggling
    ensures r.selected == v.selected && r.ui == v.ui && r.log == v.log
    ensures r.isExplodedView == v.isExplodedView && r.anyPartSelectedFlag == v.anyPartSelectedFlag
    ensures r.initialPosition == v.initialPosition && r.firstPartSelected == v.firstPartSelected
  {
    var m := v.moves[k];
    var moves := RemoveAt(v.moves, k);
    assert forall a :: 0 <= a < |moves| ==> MoveFits(moves[a], |v.parts|) by {
      forall a | 0 <= a < |moves| ensures MoveFits(moves[a], |v.parts|) {
        if a >= k { assert moves[a] == v.moves[a + 1]; }
      }
    }
    if m.Batch? then v.(position := Land(v.position, m), isToggling := false, moves := moves)
    else v.(position := Land(v.position, m), moves := moves)
  }

  /** One interpolation frame of an in-flight move writes the part's transform.
      The value written depends on float interpolation and frame timing, so any
      vector may be written. */
  function FrameWrite(v: View, i: nat, p: Vec): (r: View)
    requires WellFormed(v) && i < |v.parts| && InFlight(v, i)
    ensures WellFormed(r)
    ensures r.parts == v.parts && r.clips == v.clips && r.origin == v.origin
    ensures r.position[i] == p
    ensures forall q :: 0 <= q < |v.parts| && q != i ==> r.position[q] == v.position[q]
    ensures r.selected == v.selected && r.ui == v.ui && r.log == v.log && r.moves == v.moves
    ensures r.isExplodedView == v.isExplodedView && r.isToggling == v.isToggling
    ensures r.initialPosition == v.initialPosition
    ensures r.anyPartSelectedFlag == v.anyPartSelectedFlag && r.firstPartSelected == v.firstPartSelected
  {
    v.(position := v.position[i := p])
  }
}
